=== FILE: README.md ===
# teledigest sync and encrypted store — a Dafny model

teledigest reads new messages from the user's Telegram chats, archives each one
encrypted at rest with age, and asks a chat model for a digest of every chat.
This project models the part of it that decides and remembers what is new:

- the per-chat **watermark** (the id of the newest message processed). It is
  read from the store, used to choose the fetch window, advanced as a running
  maximum over the streamed ids, and committed at the end of the pass;
- the **normalisation** of a message into archived text, with a media marker
  (`[PHOTO]`, `[VIDEO: name]`, `[POLL: q]`, …). Messages with neither text nor
  media are skipped;
- the **transcript**: one block per kept message, with a `https://t.me/<user>/<id>`
  permalink, joined by a delimiter line, in the reverse of the order the
  client delivered the messages (oldest first when they arrive newest first);
- the **encrypted store** (`Storage`): a tree of files, each holding one
  age-encrypted UTF-8 text. It holds one file per message, one watermark file
  per chat and one session file.

Modules, leaves first:

| module | file | models |
|---|---|---|
| `Wrappers` | wrappers.dfy | `Option` (Python's `None`) and `Result` (a value or the exception raised) |
| `Decimal` | decimal.dfy | `str(n)` for ints and the reading back of that text by `int(s)` |
| `Utf8` | utf8.dfy | strict UTF-8 encoding and decoding, both round trips proved |
| `Age` | age.dfy | what pyrage's `encrypt`/`decrypt` promise: a sealed envelope that opens under the matching identity and no other. An identity's public key is the identity's own number wrapped as a recipient, so distinct identities have distinct public keys by construction |
| `Telegram` | telegram.dfy | the message records the client yields |
| `Data` | data.dfy | data.py: the `Storage` class over a `map<Path, Ciphertext>` field, with its path helpers |
| `MediaMarker` | media_marker.dfy | `get_media_description` |
| `Transcript` | transcript.dfy | `messages2text` and the `reversed` batch |
| `Sync` | sync.dfy | `new_history`, `get_messages_fn`, `newest_message`, `summary`'s empty guard, and the `process_entity` pass |

The Telegram client and the summarizer are parameters of `Sync.ProcessEntity`.
`fetch` maps the chosen window to the messages the client delivers for it, in
its own order. `summarize` stands for the chat-completion call. A chat's
username, which the source gets from `message.get_chat()`, is a field of each
message record.

The model follows the code, apart from the departures listed under
"## Left out" and the two defects listed under "## Findings". Two points
about the pass:

- In the code, the watermark write is one more task in the same `asyncio.gather`
  as the message writes (main.py:279-284). It is not ordered after them. The
  model applies the writes one after another, message files first, then the
  watermark.
- Every pass of the code writes the watermark, `None` included (main.py:279).
  Writing `None` leaves a file that the next pass cannot read. That is the
  second finding, and the model leaves the file absent instead.

## Model

| member | source | states |
|---|---|---|
| `Decimal.NatToString` | data.py:54 | `str(n)` of a non-negative int is a non-empty run of decimal digits with no leading zero |
| `Decimal.IntToString` | data.py:54 | `str(n)` starts with '-' exactly for negative n and is digits otherwise |
| `Decimal.ParseInt` | data.py:51 | `int(s)` refuses the empty text and any text with a character that is neither a digit nor a leading sign |
| `Decimal.IntStringRoundTrip` | data.py:51-54 | reading back `str(n)` with `int` gives n, for every integer n |
| `Decimal.IntToStringInjective` | data.py:45 | distinct integers have distinct decimal text, so ids and entities name distinct files |
| `Utf8.EncodeChar` | data.py:28 | one scalar value encodes to 1 to 4 bytes, one byte exactly for ASCII, continuation bytes after the first |
| `Utf8.Encode` | data.py:28 | only the empty text encodes to no bytes |
| `Utf8.DecodeFirst` | data.py:20 | a decoded head consumes between 1 and 4 of the available bytes |
| `Utf8.Decode` | data.py:20 | strict decoding of no bytes is the empty text |
| `Utf8.DecodeFirstEncodeChar` | data.py:20-28 | decoding the encoding of a character gives that character and its length, whatever follows |
| `Utf8.EncodeCharDecodeFirst` | data.py:20 | whatever strict decoding accepts at the head is the canonical encoding of the character it returns (no overlong forms, no surrogates) |
| `Utf8.DecodeEncode` | data.py:20-28 | `decode(encode(s)) == s` for every string, the empty one included |
| `Utf8.EncodeDecode` | data.py:20-28 | bytes that decode are exactly the encoding of the decoded text |
| `Age.Encrypt` | data.py:29 | a file sealed to a list of recipients opens under an identity exactly when that identity's public key is listed |
| `Age.Decrypt` | data.py:19 | decryption succeeds exactly when one of the identities can open the file, and yields the sealed bytes |
| `Age.EncryptDecrypt` | data.py:19-29 | what is encrypted to the store's public key decrypts under its identity to the same bytes |
| `Data.MessagePath` | data.py:56-57 | `<entity_path>/msg.<id>.txt.age`; distinct ids give distinct paths (`Data.MessagePathsDistinct`) and none is the watermark file (`Data.MessageFileIsNotMeta`) |
| `Data.WatermarkText` | data.py:53-54 | `str(latest_msg_id)`: the text is "None" exactly when there is no watermark, so no integer is written as "None"; `Data.WatermarkTextRoundTrip` reads it back |
| `Data.MessageFileNameInjective` | data.py:57 | distinct ids give distinct `msg.<id>.txt.age` names |
| `Data.MessagePathsDistinct` | data.py:56-57 | within one entity directory, distinct ids give distinct message paths |
| `Data.MessageFileIsNotMeta` | data.py:45-57 | no message file is named like the watermark file |
| `Data.WatermarkTextRoundTrip` | data.py:47-54 | an integer watermark written as `str(n)` reads back as n; the text `str(None)` is refused by `int` |
| `Data.Storage.constructor` | data.py:9-14 | the store's directories are `data/messages` and `data/sessions` and its public key is the identity's |
| `Data.Storage.Seal` | data.py:27-29 | what `write_data` stores for a text decrypts under the store's identity to the text's UTF-8 bytes |
| `Data.Storage.SyncReadData` | data.py:16-21 | a missing file raises not-found and an undecryptable one a decryption error; a file that decrypts reads successfully exactly when its bytes are strict UTF-8, and otherwise raises a Unicode error; a successful read returns the text whose encoding the file decrypts to |
| `Data.Storage.ReadSealed` | data.py:16-33 | a file written by `write_data` reads back as the text written, the empty text included |
| `Data.Storage.WriteData` | data.py:26-33 | only the written path changes, and it reads back as the text written |
| `Data.Storage.SessionPath` | data.py:35-36 | `sessions/test.session.age`; it is no message or watermark path (`Data.Storage.PathsDisjoint`) |
| `Data.Storage.GetSession` | data.py:38-42 | a fresh session exactly when the session file is absent; a present file that reads successfully gives the session restored from its text, and one that does not gives the read's error |
| `Data.Storage.SaveSession` | data.py:60-63 | after `save_session(s)`, `get_session` restores s from `sessions/test.session.age` |
| `Data.Storage.MetaLastMsgPath` | data.py:44-45 | `messages/<entity>/meta.latest_msg.txt.age`, inside the entity directory `EntityPath` that `process_entity` also writes messages to (main.py:230): one per entity, and no message or session path (`Data.Storage.PathsDisjoint`) |
| `Data.Storage.GetLastKnownMsg` | data.py:47-51 | None exactly when the watermark file is absent, so a present file is never taken as absent; a readable file gives the integer `int` reads from its text, or fails with that text when `int` refuses it; an unreadable file gives the read's error |
| `Data.Storage.WriteLastKnownMsg` | data.py:53-54 | only the watermark file changes; an integer reads back as itself, and None leaves a file that can no longer be read |
| `Data.Storage.WriteMessage` | data.py:56-58 | only `<entity_path>/msg.<id>.txt.age` changes, and it reads back as the content given |
| `Data.Storage.WriteRawMessage` | data.py:56-58 | the two-argument `write_message` as declared: it stores the raw text, and raises without writing when the text is None |
| `Data.Storage.PathsDisjoint` | data.py:35-57 | message paths are keyed one-to-one by (entity, id); no message path is a watermark or session path; watermark paths are one per entity |
| `MediaMarker.FirstFileName` | main.py:192-199 | no file name exactly when no attribute is a filename attribute |
| `MediaMarker.FirstFileNameIsFirst` | main.py:196-199 | the name found is that of the first filename attribute; later ones are ignored |
| `MediaMarker.FindFileName` | main.py:193-199 | the scan with its early `break` finds the first filename attribute's name |
| `MediaMarker.Describe` | main.py:183-226 | a marker exactly when the message has media, and no marker is empty |
| `MediaMarker.MarkerIsBracketed` | main.py:188-226 | every marker, whatever the media kind, starts with `[` and ends with `]`; a document's `[KIND]` or `[KIND: name]` tag included |
| `MediaMarker.GetMediaDescription` | main.py:183-226 | `get_media_description`, running the attribute scan, returns the marker `Describe` specifies |
| `MediaMarker.DocumentPrecedence` | main.py:201-212 | a document is VIDEO if any attribute is video, else AUDIO if any is audio, else FILE; the `: name` suffix appears exactly when the first filename attribute's name is non-empty |
| `Transcript.Block` | main.py:161-166 | one message's block, `url: <permalink>\nusername: <username>\n text:<text>`, where `Permalink` is `https://t.me/<username>/<id>` (main.py:165); `Transcript.BlockShape` states its shape |
| `Transcript.BlockShape` | main.py:161-166 | a block starts with `url: ` and the message's `https://t.me/<username>/<id>` permalink, and ends with the message's text |
| `Transcript.Join` | main.py:168 | Python's `sep.join`; `Transcript.JoinConcat` states how it splits over a concatenation |
| `Transcript.Messages2Text` | main.py:159-168 | the append loop and the join produce the rendering of the entries in the order given |
| `Transcript.JoinConcat` | main.py:168 | joining two non-empty lists puts exactly one separator between their joins |
| `Transcript.RenderConcat` | main.py:159-168 | the transcript of a concatenation is the two transcripts with one delimiter between, so n - 1 delimiters are inserted between n blocks, in input order (a message text may itself contain the delimiter) |
| `Transcript.RenderSmall` | main.py:159-168 | no entries render as "", one entry as its block alone |
| `Transcript.JoinLength` | main.py:168 | `sep.join` of n >= 1 parts is as long as the parts plus n - 1 separators |
| `Transcript.RenderLength` | main.py:159-168 | the length of a transcript of n entries is the sum of its blocks' lengths plus that of the n - 1 inserted delimiters |
| `Transcript.RenderEmptyIff` | main.py:168 | the transcript is empty exactly when the batch is |
| `Transcript.Reverse` | main.py:292 | `reversed` puts element i at position n - 1 - i |
| `Transcript.RenderReversedCons` | main.py:292 | the first arrival is rendered last |
| `Transcript.ReverseIsChronological` | main.py:292 | a batch delivered in strictly decreasing id order is rendered in ascending id order |
| `Sync.NewHistory` | main.py:133-134 | a history is new exactly when there is no watermark; `Sync.MessagesWindow` states the window it selects |
| `Sync.MessagesWindow` | main.py:133-150 | a cold start of at most RETRIEVE_LIMIT = 2 messages exactly when there is no watermark, otherwise every id above the watermark |
| `Sync.NewestMessage` | main.py:153-156 | the result is the new id when there was no watermark, and otherwise the larger of the two |
| `Sync.Watermark` | main.py:240-241 | the fold of `newest_message` over the ids in arrival order; `Sync.WatermarkIsMax` and `Sync.WatermarkOrderIndependent` state its value |
| `Sync.WatermarkIsMax` | main.py:240-241 | the folded watermark is the maximum of the start and every id seen, skipped messages included; None only if there was neither |
| `Sync.WatermarkOrderIndependent` | main.py:240-241 | any reordering of the stream gives the same watermark |
| `Sync.Normalise` | main.py:247-257 | the text is `TextOf`, `message.text or ""` (main.py:247); skipped exactly when that text is empty and there is no media; otherwise never empty |
| `Sync.NormaliseShape` | main.py:245-258 | kept content starts with the media marker when there is media and ends with the message text when there is text |
| `Sync.Batch` | main.py:247-278 | the entries the pass collects, in arrival order; `Sync.BatchFromStream`, `Sync.BatchCovers` and `Sync.BatchKeepsOrder` state what they are |
| `Sync.Archived` | main.py:247-259 | the texts the pass archives, by path; `Sync.ArchivedCovers`, `Sync.ArchivedOrigin` and `Sync.ArchivedLastWins` state what it holds |
| `Sync.PhotoPaths` | main.py:261-268 | the photo downloads the pass schedules, in arrival order, each at `PhotoPath`, `<entity_path>/photos/photo_<id>.jpg.age` (main.py:263); `Sync.PhotoPathsCover` and `Sync.PhotoPathsOrigin` state which |
| `Sync.PhotoPathsCover` | main.py:250-268 | every photo message of the stream is kept and has its download scheduled; there are no more downloads than messages |
| `Sync.PhotoPathsOrigin` | main.py:261-268 | every scheduled download belongs to a photo message of the stream; with `Sync.PhotoPathsCover`, one download per photo message and no other |
| `Sync.SealAll` | main.py:259 | the files the pass's writes produce: one per archived path, and every sealed file decrypts under the store's identity to its text's UTF-8 bytes |
| `Sync.BatchFromStream` | main.py:250-278 | every batch entry is a kept message's normalised entry, with non-empty text, and the batch is no longer than the stream |
| `Sync.BatchConcat` | main.py:247-278 | the batch of two stretches of the stream is the first stretch's batch followed by the second's |
| `Sync.BatchSplit` | main.py:247-278 | a kept message's entry sits in the batch after the entries of the messages before it and before those of the messages after it |
| `Sync.BatchCovers` | main.py:247-278 | every kept message of the stream reaches the batch with its normalised content |
| `Sync.BatchKeepsOrder` | main.py:247-278 | two kept messages appear in the batch in their arrival order |
| `Sync.ArchivedCovers` | main.py:250-259 | the pass writes a file for every id of a kept message |
| `Sync.ArchivedOrigin` | main.py:250-259 | every file the pass writes belongs to a kept message of the stream and never holds empty content |
| `Sync.ArchivedLastWins` | main.py:259 | the file of an id holds the content of the last kept message with that id |
| `Sync.ArchivedPrefixKeys` | main.py:240-259 | the files archived for the first k messages of a stream are among those archived for the whole stream |
| `Sync.ResumeAfterPartialPass` | main.py:236-279 | a pass interrupted after archiving its first k messages, before the watermark is committed, is completed by running it again over the same messages: it leaves files that decrypt to the texts of one uninterrupted pass. `Sync.PartialPassKeepsWatermark` shows the interrupted writes leave the watermark file untouched, so the rerun starts from the same watermark |
| `Sync.PartialPassKeepsWatermark` | main.py:236-279 | no message write of a pass, complete or interrupted, lands on the chat's watermark file |
| `Sync.WindowBoundsPass` | main.py:133-150 | when the client honours the window, a cold start keeps and archives at most 2 messages, and a catch-up only ids above the watermark |
| `Sync.Summary` | main.py:93-95 | an empty transcript gives no summary without calling out |
| `Sync.SealAllUpdate` | main.py:259 | one more write on top of an archive is the archive of the updated text map |
| `Sync.ProcessEntity` | main.py:228-298 | an unreadable watermark ends the pass with nothing written. Otherwise the files become the old ones plus every kept message's normalised content, and the watermark file holds the running maximum (left absent when there is none). Reading the watermark back gives that maximum, the scheduled photos are those of the stream, and the result is the summary of the batch rendered in reverse arrival order |
| `Sync.SummaryOnlyForNonEmptyBatch` | main.py:292-298 | the summarizer is consulted exactly when the batch is non-empty |
| `Sync.ColdStartScenario` | main.py:240-292 | with no watermark, text message 10 and photo-only message 9 are both archived (9 as `[PHOTO]`), the watermark becomes 10, one photo download is scheduled and 9 is rendered first |
| `Sync.ArrivalOrderReversed` | main.py:292 | arrival order 5, 4, 3 is rendered 3, 4, 5 |
| `Sync.AsWrittenArchiveLosesMarker` | main.py:259 | for a photo-only message the raw text that data.py's `write_message` stores differs from the normalised content `[PHOTO]`, or is None |

## Left out

- The Telegram client is not modelled: connecting, `iter_dialogs`, `iter_messages`, `get_chat` and the `TelegramClient` lifecycle are network I/O. The messages a window yields are a function parameter, and what the client promises for a window is the predicate `Sync.Honours`.
- `mark_read` is not modelled. It is an acknowledgement to the server and changes nothing the engine keeps. Its coroutine is gathered with the writes (main.py:244, main.py:284), so in the code a failing `mark_read` makes `process_entity` raise; that failure path is not modelled.
- The chat-completion call in `summary` (main.py:97-130) and its `images` argument are not modelled; they are a foreign network service. Only the empty-content guard is modelled, and the call itself is a parameter.
- `download_and_encrypt_media` is not part of this model; it is network-bound and not defined in data.py. The pass returns the photo paths it would schedule, but no photo bytes are written.
- Concurrency (`asyncio.gather`, `create_task`, `to_thread`) is not modelled. Writes are applied one after another before the pass returns. Because of this, the model does not capture that in the code a failed write in the gathered list does not stop the watermark write that shares it.
- Directories (`mkdir`) are not modelled, and neither are I/O errors on write. Every write in the model succeeds.
- `Data.Storage.WriteData` is one atomic update of the file map. The code opens the target with `"wb"` and rewrites it in place (data.py:30-31), so a crash part-way through leaves a truncated file. The model does not capture such a torn file. A torn watermark file makes every later `get_last_known_msg` (data.py:47-51) fail with a decryption error. A torn session file breaks start-up at main.py:29-30.
- A Python `str` holding a lone surrogate makes `encode("utf-8", errors="strict")` raise in `write_data` (data.py:28). A Dafny `string` cannot hold a lone surrogate in this model, so that failure is not modelled.
- The transcript is rendered in the reverse of the client's delivery order (main.py:292). It is chronological only when the client delivers ids in strictly decreasing order (`Transcript.ReverseIsChronological` requires that). The model does not assume that order: an arrival 5, 3, 4 renders 4, 3, 5. The watermark is a running maximum, so it does not depend on the order.
- `age`'s cipher is not modelled. A ciphertext is a sealed envelope that names its recipients, and bytes that are not an age file are `Malformed`.
- `Age.Encrypt` is deterministic in the model: the same text sealed twice gives the same file. age draws a fresh random file key and ephemeral share on every call, so rewriting a text gives different bytes. Where the model states that two sets of files are equal (`Sync.ProcessEntity`, `Sync.ResumeAfterPartialPass`, `Sync.SealAllUpdate`), the program promises only that they decrypt to the same texts.
- `Decimal.ParseInt`: accepts only an optional sign followed by ASCII digits. Python's `int` also accepts surrounding whitespace, underscores between digits and non-ASCII digits. The store only ever reads back text that `str` wrote.
- `Data.Storage.GetSession`: returns the saved string as the session. Parsing that string into a Telethon session (which raises on malformed text) is the client library's job.
- A `Document` whose document is empty (and has no attributes field) is not modelled. In the code it raises `AttributeError`.
- A poll question is modelled as a plain string. Newer Telethon versions wrap it in a text-with-entities object.
- The terminal output of `main`, `print_wrapped`, logging, environment and configuration loading, and the system prompt's text are not modelled (UI and process set-up).
- An id below the watermark that was missed earlier is never fetched again, because `iter_since` asks only for ids above `min_id` (main.py:141-142). The model has the same gap, because `Sync.Honours` only admits ids above the watermark.

## Findings

| source | as written | input that shows it | evidently intended | confidence | as-written member | corrected member |
|---|---|---|---|---|---|---|
| main.py:259, data.py:56-58 | `write_message` is declared with `(entity_path, message)` and stores `message.text`. The call passes three arguments, which Python rejects with a `TypeError`. Even with two arguments it would store the raw text, not the normalised content. | a photo-only message: id 9, empty text, a photo | the message file holds the normalised content `[PHOTO]` | not executed; high | `Data.Storage.WriteRawMessage`, `Sync.AsWrittenArchiveLosesMarker` | `Data.Storage.WriteMessage` |
| main.py:279, data.py:51-54 | with no watermark and an empty stream, the watermark `None` is written as the text "None". The next `get_last_known_msg` then raises `ValueError` in `int`. | first pass over a chat that yields no messages | leave the watermark file absent, so the next pass is again a cold start | not executed; high | `Data.Storage.WriteLastKnownMsg`, `Data.WatermarkTextRoundTrip` | `Sync.ProcessEntity` |

=== FILE: age.dfy ===
/**
 * The age encryption that the store applies through pyrage, modelled at the
 * level of its promise rather than its cipher: a file encrypted to a list of
 * recipients opens, to exactly the bytes that were sealed, under any identity
 * whose public half is among them, and under no other; bytes that are not an
 * age file do not open at all.
 */
module Age {
  import opened Wrappers
  import Utf8

  /** An X25519 identity (the private half). */
  datatype Identity = Identity(secret: nat)

  /** An X25519 recipient (the public half). */
  datatype Recipient = Recipient(key: nat)

  /** What is on disk: a sealed age file, or bytes that are not one. */
  datatype Ciphertext =
    | Sealed(recipients: seq<Recipient>, payload: seq<Utf8.byte>)
    | Malformed(raw: seq<Utf8.byte>)

  /** `Identity.to_public()`: each identity has its own public half. */
  function ToPublic(id: Identity): Recipient {
    Recipient(id.secret)
  }

  predicate CanOpen(c: Ciphertext, identities: seq<Identity>) {
    c.Sealed? && exists i :: 0 <= i < |identities| && ToPublic(identities[i]) in c.recipients
  }

  /** `pyrage.encrypt(data, recipients)`. */
  function Encrypt(data: seq<Utf8.byte>, recipients: seq<Recipient>): (c: Ciphertext)
    ensures forall id: Identity :: CanOpen(c, [id]) <==> ToPublic(id) in recipients
  {
    assert forall id: Identity :: ToPublic([id][0]) == ToPublic(id);
    Sealed(recipients, data)
  }

  /** `pyrage.decrypt(data, identities)`: None is the DecryptError case. */
  function Decrypt(c: Ciphertext, identities: seq<Identity>): (r: Option<seq<Utf8.byte>>)
    ensures r.Some? <==> CanOpen(c, identities)
    ensures r.Some? ==> r.value == c.payload
  {
    if CanOpen(c, identities) then Some(c.payload) else None
  }

  /** Whatever is encrypted to an identity's public half decrypts under that identity to the same bytes. */
  lemma EncryptDecrypt(data: seq<Utf8.byte>, id: Identity)
    ensures Decrypt(Encrypt(data, [ToPublic(id)]), [id]) == Some(data)
  {
    assert ToPublic([id][0]) in [ToPublic(id)];
  }
}

=== FILE: data.dfy ===
/**
 * The encrypted store of data.py: a directory tree under `data` whose files
 * each hold one age-encrypted UTF-8 text. The tree is modelled as a map
 * from path to file contents; a path is the sequence of its components, as
 * pathlib's `/` builds it.
 */
module Data {
  import opened Wrappers
  import Decimal
  import Utf8
  import Age
  import Telegram

  type Path = seq<string>

  /** What reading or writing a file can raise. */
  datatype StoreError =
    | FileNotFound(path: Path)   // open() of a missing file
    | DecryptError(path: Path)   // pyrage.decrypt refuses the contents
    | UnicodeError(path: Path)   // the decrypted bytes are not strict UTF-8
    | NotAnInteger(text: string) // int() refuses the watermark text
    | TextIsNone                 // encoding a text that is None

  /** A client session: a fresh one, or one restored from its saved string. */
  datatype Session = FreshSession | SavedSession(blob: string)

  const MetaFileName := "meta.latest_msg.txt.age"
  const SessionFileName := "test.session.age"

  /** The file name of one archived message: `msg.<id>.txt.age`. */
  function MessageFileName(id: int): string {
    "msg." + Decimal.IntToString(id) + ".txt.age"
  }

  /** Where `write_message` puts a message: `<entity_path>/msg.<id>.txt.age`. */
  function MessagePath(entityPath: Path, id: int): Path {
    entityPath + [MessageFileName(id)]
  }

  /** `str(latest_msg_id)` as `write_last_known_msg` writes it, None included. */
  function WatermarkText(latest: Option<int>): (r: string)
    ensures r == "None" <==> latest.None?
  {
    match latest
    case None => "None"
    case Some(n) => Decimal.IntToString(n)
  }

  lemma MessageFileNameInjective(a: int, b: int)
    requires a != b
    ensures MessageFileName(a) != MessageFileName(b)
  {
    Decimal.IntToStringInjective(a, b);
    var x, y := MessageFileName(a), MessageFileName(b);
    assert x[4..|x| - 8] == Decimal.IntToString(a);
    assert y[4..|y| - 8] == Decimal.IntToString(b);
  }

  /** Distinct message ids give distinct files in the same entity directory. */
  lemma MessagePathsDistinct(entityPath: Path, a: int, b: int)
    requires a != b
    ensures MessagePath(entityPath, a) != MessagePath(entityPath, b)
  {
    MessageFileNameInjective(a, b);
    assert MessagePath(entityPath, a)[|entityPath|] == MessageFileName(a);
  }

  /** No message file is named like the watermark file. */
  lemma MessageFileIsNotMeta(id: int)
    ensures MessageFileName(id) != MetaFileName
  {
    assert MessageFileName(id)[1] == 's';
    assert MetaFileName[1] == 'e';
  }

  /** Reading the watermark text back with int() gives the watermark, and fails on the text of None. */
  lemma WatermarkTextRoundTrip(latest: Option<int>)
    ensures latest.Some? ==> Decimal.ParseInt(WatermarkText(latest)) == latest
    ensures latest.None? ==> Decimal.ParseInt(WatermarkText(latest)) == None
  {
    if latest.Some? {
      Decimal.IntStringRoundTrip(latest.value);
    } else {
      assert !Decimal.IsDigit(WatermarkText(latest)[0]);
    }
  }

  class Storage {
    const data: Path
    const messages: Path
    const sessions: Path
    const identity: Age.Identity
    const pubkey: Age.Recipient
    /** The files under `data`, by path. */
    var files: map<Path, Age.Ciphertext>

    ghost predicate Valid() {
      && messages == data + ["messages"]
      && sessions == data + ["sessions"]
      && pubkey == Age.ToPublic(identity)
    }

    /** `Storage(data_path, identity)` over the files already on disk. */
    constructor (dataPath: Path, identity: Age.Identity, disk: map<Path, Age.Ciphertext>)
      ensures Valid()
      ensures data == dataPath && this.identity == identity && files == disk
    {
      data := dataPath;
      messages := dataPath + ["messages"];
      sessions := dataPath + ["sessions"];
      this.identity := identity;
      pubkey := Age.ToPublic(identity);
      files := disk;
    }

    /** What `write_data` puts on disk for a text: its UTF-8 bytes encrypted to the store's public key. */
    function Seal(text: string): (c: Age.Ciphertext)
      requires Valid()
      ensures Age.Decrypt(c, [identity]) == Some(Utf8.Encode(text))
    {
      Age.EncryptDecrypt(Utf8.Encode(text), identity);
      Age.Encrypt(Utf8.Encode(text), [pubkey])
    }

    /**
     * `sync_read_data`: open, decrypt with the identity, decode strictly.
     * Each way it can raise is a Failure naming the cause.
     */
    function SyncReadData(path: Path): (r: Result<string, StoreError>)
      reads this
      ensures path !in files ==> r == Failure(FileNotFound(path))
      ensures path in files && Age.Decrypt(files[path], [identity]).None? ==> r == Failure(DecryptError(path))
      ensures path in files && Age.Decrypt(files[path], [identity]).Some? ==>
        && (r.Success? <==> Utf8.Decode(Age.Decrypt(files[path], [identity]).value).Some?)
        && (r.Failure? ==> r == Failure(UnicodeError(path)))
      ensures r.Success? ==> path in files && Age.Decrypt(files[path], [identity]) == Some(Utf8.Encode(r.value))
    {
      if path !in files then Failure(FileNotFound(path))
      else match Age.Decrypt(files[path], [identity])
        case None => Failure(DecryptError(path))
        case Some(bytes) =>
          match Utf8.Decode(bytes)
          case None => Failure(UnicodeError(path))
          case Some(text) => Utf8.EncodeDecode(bytes); Success(text)
    }

    /** A file that `write_data` wrote reads back as the text written, the empty text included. */
    lemma ReadSealed(path: Path, text: string)
      requires Valid() && path in files && files[path] == Seal(text)
      ensures SyncReadData(path) == Success(text)
    {
      Utf8.DecodeEncode(text);
    }

    /** `write_data`: overwrite one file with the sealed text; no other file changes. */
    method WriteData(path: Path, text: string)
      requires Valid()
      modifies this
      ensures files == old(files)[path := Seal(text)]
      ensures SyncReadData(path) == Success(text)
    {
      files := files[path := Seal(text)];
      ReadSealed(path, text);
    }

    /** `_session_path`: `sessions/test.session.age`. */
    function SessionPath(): Path {
      sessions + [SessionFileName]
    }

    /**
     * `get_session`: a fresh session when no session file exists, else the
     * session restored from the file's text; a file that cannot be read fails.
     */
    function GetSession(): (r: Result<Session, StoreError>)
      reads this
      ensures SessionPath() !in files <==> r == Success(FreshSession)
      ensures r.Success? && r.value.SavedSession? ==> SyncReadData(SessionPath()) == Success(r.value.blob)
      ensures SessionPath() in files && SyncReadData(SessionPath()).Success? ==>
        r == Success(SavedSession(SyncReadData(SessionPath()).value))
      ensures SessionPath() in files && SyncReadData(SessionPath()).Failure? ==>
        r == Failure(SyncReadData(SessionPath()).error)
    {
      if SessionPath() !in files then Success(FreshSession)
      else match SyncReadData(SessionPath())
        case Failure(e) => Failure(e)
        case Success(blob) => Success(SavedSession(blob))
    }

    /** `save_session`: the next `get_session` restores the saved string. */
    method SaveSession(session: string)
      requires Valid()
      modifies this
      ensures files == old(files)[SessionPath() := Seal(session)]
      ensures GetSession() == Success(SavedSession(session))
    {
      WriteData(SessionPath(), session);
    }

    /** The directory of one entity's archive: `messages/<entity>`. */
    function EntityPath(entity: int): Path {
      messages + [Decimal.IntToString(entity)]
    }

    /** `_meta_last_msg_path`: `messages/<entity>/meta.latest_msg.txt.age`. */
    function MetaLastMsgPath(entity: int): Path {
      EntityPath(entity) + [MetaFileName]
    }

    /**
     * `get_last_known_msg`: None when the watermark file is absent, the
     * integer it holds otherwise; a file present but unreadable or not an
     * integer fails rather than reading as absent.
     */
    function GetLastKnownMsg(entity: int): (r: Result<Option<int>, StoreError>)
      reads this
      ensures r == Success(None) <==> MetaLastMsgPath(entity) !in files
      ensures r.Success? && r.value.Some? ==>
        exists text :: SyncReadData(MetaLastMsgPath(entity)) == Success(text) && Decimal.ParseInt(text) == r.value
      ensures MetaLastMsgPath(entity) in files && SyncReadData(MetaLastMsgPath(entity)).Failure? ==>
        r == Failure(SyncReadData(MetaLastMsgPath(entity)).error)
      ensures MetaLastMsgPath(entity) in files && SyncReadData(MetaLastMsgPath(entity)).Success? ==>
        var text := SyncReadData(MetaLastMsgPath(entity)).value;
        && (Decimal.ParseInt(text).Some? ==> r == Success(Decimal.ParseInt(text)))
        && (Decimal.ParseInt(text).None? ==> r == Failure(NotAnInteger(text)))
    {
      var path := MetaLastMsgPath(entity);
      if path !in files then Success(None)
      else match SyncReadData(path)
        case Failure(e) => Failure(e)
        case Success(text) =>
          match Decimal.ParseInt(text)
          case None => Failure(NotAnInteger(text))
          case Some(n) => Success(Some(n))
    }

    /**
     * `write_last_known_msg`, as written: it stores `str(latest)`, so an
     * integer reads back as itself and None leaves a file that no later
     * `get_last_known_msg` can read.
     */
    method WriteLastKnownMsg(entity: int, latest: Option<int>)
      requires Valid()
      modifies this
      ensures files == old(files)[MetaLastMsgPath(entity) := Seal(WatermarkText(latest))]
      ensures latest.Some? ==> GetLastKnownMsg(entity) == Success(latest)
      ensures latest.None? ==> GetLastKnownMsg(entity) == Failure(NotAnInteger("None"))
    {
      WriteData(MetaLastMsgPath(entity), WatermarkText(latest));
      WatermarkTextRoundTrip(latest);
    }

    /** `write_message` with the normalised content: overwrites the file of that id only. */
    method WriteMessage(entityPath: Path, id: int, content: string)
      requires Valid()
      modifies this
      ensures files == old(files)[MessagePath(entityPath, id) := Seal(content)]
      ensures SyncReadData(MessagePath(entityPath, id)) == Success(content)
    {
      WriteData(MessagePath(entityPath, id), content);
    }

    /**
     * `write_message(entity_path, message)` as data.py declares it: it stores
     * the message's raw text, and raises when that text is None.
     */
    method WriteRawMessage(entityPath: Path, message: Telegram.RawMessage) returns (r: Result<(), StoreError>)
      requires Valid()
      modifies this
      ensures message.text.None? ==> r == Failure(TextIsNone) && files == old(files)
      ensures message.text.Some? ==> r.Success? && files == old(files)[MessagePath(entityPath, message.id) := Seal(message.text.value)]
    {
      if message.text.None? {
        return Failure(TextIsNone);
      }
      WriteData(MessagePath(entityPath, message.id), message.text.value);
      r := Success(());
    }

    /**
     * The store's paths never collide: message files are keyed by (entity, id)
     * one-to-one, and none of them is a watermark file or the session file.
     */
    lemma PathsDisjoint(e1: int, id1: int, e2: int, id2: int)
      requires Valid()
      ensures MessagePath(EntityPath(e1), id1) == MessagePath(EntityPath(e2), id2) <==> e1 == e2 && id1 == id2
      ensures MessagePath(EntityPath(e1), id1) != MetaLastMsgPath(e2)
      ensures MessagePath(EntityPath(e1), id1) != SessionPath()
      ensures MetaLastMsgPath(e1) != SessionPath()
      ensures MetaLastMsgPath(e1) == MetaLastMsgPath(e2) <==> e1 == e2
    {
      var n := |messages|;
      if e1 != e2 {
        Decimal.IntToStringInjective(e1, e2);
        assert MessagePath(EntityPath(e1), id1)[n] != MessagePath(EntityPath(e2), id2)[n];
        assert MetaLastMsgPath(e1)[n] != MetaLastMsgPath(e2)[n];
      } else if id1 != id2 {
        MessagePathsDistinct(EntityPath(e1), id1, id2);
      }
      MessageFileIsNotMeta(id1);
      assert MessagePath(EntityPath(e1), id1)[n + 1] != MetaLastMsgPath(e2)[n + 1];
      assert SessionPath()[|data|] == "sessions" != "messages" == MessagePath(EntityPath(e1), id1)[|data|];
      assert SessionPath()[|data|] != MetaLastMsgPath(e1)[|data|];
    }
  }
}

=== FILE: decimal.dfy ===
/**
 * Decimal text of integers: Python's `str(n)` for an `int` and the part of
 * `int(s)` that reads such text back. The store keeps watermarks as this
 * text, and paths and permalinks embed entity and message ids in it.
 */
module Decimal {
  import opened Wrappers

  predicate IsDigit(c: char) {
    '0' <= c <= '9'
  }

  function DigitChar(d: nat): (c: char)
    requires d < 10
    ensures IsDigit(c) && (c as int) - ('0' as int) == d
  {
    (('0' as int) + d) as char
  }

  function DigitValue(c: char): (d: nat)
    requires IsDigit(c)
    ensures d < 10 && DigitChar(d) == c
  {
    (c as int) - ('0' as int)
  }

  predicate AllDigits(s: string) {
    forall i :: 0 <= i < |s| ==> IsDigit(s[i])
  }

  /** `str(n)` for n >= 0: the shortest decimal numeral, no sign, no leading zero. */
  function NatToString(n: nat): (s: string)
    ensures |s| >= 1 && AllDigits(s)
    ensures s[0] == '0' ==> n == 0
    decreases n
  {
    if n < 10 then [DigitChar(n)] else NatToString(n / 10) + [DigitChar(n % 10)]
  }

  /** `str(n)` for any Python int: a leading '-' for negatives. */
  function IntToString(n: int): (s: string)
    ensures |s| >= 1
    ensures n < 0 <==> s[0] == '-'
    ensures n >= 0 ==> AllDigits(s)
  {
    if n < 0 then "-" + NatToString(-n) else NatToString(n)
  }

  /** The value of a non-empty run of decimal digits (leading zeros allowed). */
  function ParseNat(s: string): nat
    requires AllDigits(s)
  {
    if s == [] then 0 else ParseNat(s[..|s| - 1]) * 10 + DigitValue(s[|s| - 1])
  }

  /**
   * `int(s)` restricted to an optional sign followed by ASCII digits;
   * anything else (the text "None" among it) is the ValueError case.
   */
  function ParseInt(s: string): (r: Option<int>)
    ensures s == [] ==> r == None
    ensures (exists i :: 0 <= i < |s| && !IsDigit(s[i]) && (i > 0 || (s[0] != '-' && s[0] != '+'))) ==> r == None
  {
    if |s| >= 2 && (s[0] == '-' || s[0] == '+') && AllDigits(s[1..]) then
      var magnitude: int := ParseNat(s[1..]);
      Some(if s[0] == '-' then -magnitude else magnitude)
    else if |s| >= 1 && AllDigits(s) then
      Some(ParseNat(s))
    else
      None
  }

  lemma {:induction false} ParseNatToString(n: nat)
    ensures ParseNat(NatToString(n)) == n
    decreases n
  {
    var s := NatToString(n);
    if n >= 10 {
      ParseNatToString(n / 10);
      assert s[..|s| - 1] == NatToString(n / 10);
    }
  }

  /** Reading back what `str` wrote gives the same integer: the watermark round trip. */
  lemma IntStringRoundTrip(n: int)
    ensures ParseInt(IntToString(n)) == Some(n)
  {
    var s := IntToString(n);
    if n < 0 {
      ParseNatToString(-n);
      assert s[1..] == NatToString(-n);
    } else {
      ParseNatToString(n);
    }
  }

  /** Distinct integers have distinct decimal text. */
  lemma IntToStringInjective(a: int, b: int)
    requires a != b
    ensures IntToString(a) != IntToString(b)
  {
    IntStringRoundTrip(a);
    IntStringRoundTrip(b);
  }
}

=== FILE: media_marker.dfy ===
/**
 * `get_media_description`: the textual marker that stands in for a
 * message's media in the archive and the transcript. The kinds are tried in
 * a fixed order, photo, document (video before audio before generic file),
 * location, contact, poll, web page, with `[MEDIA]` for anything else.
 */
module MediaMarker {
  import opened Wrappers
  import opened Telegram

  /** The file name of the first filename attribute, if there is one; later ones are ignored. */
  function FirstFileName(attributes: seq<DocumentAttribute>): (r: Option<string>)
    ensures r.None? <==> forall i :: 0 <= i < |attributes| ==> !attributes[i].FilenameAttribute?
  {
    if attributes == [] then None
    else if attributes[0].FilenameAttribute? then Some(attributes[0].fileName)
    else FirstFileName(attributes[1..])
  }

  /** The first filename attribute wins: the name found sits at an index before which no filename attribute occurs. */
  lemma {:induction false} FirstFileNameIsFirst(attributes: seq<DocumentAttribute>)
    requires FirstFileName(attributes).Some?
    ensures exists i :: 0 <= i < |attributes| && attributes[i] == FilenameAttribute(FirstFileName(attributes).value)
                        && forall j :: 0 <= j < i ==> !attributes[j].FilenameAttribute?
  {
    if attributes[0].FilenameAttribute? {
      assert attributes[0] == FilenameAttribute(FirstFileName(attributes).value);
    } else {
      var rest := attributes[1..];
      FirstFileNameIsFirst(rest);
      var i :| 0 <= i < |rest| && rest[i] == FilenameAttribute(FirstFileName(rest).value)
               && forall j :: 0 <= j < i ==> !rest[j].FilenameAttribute?;
      assert attributes[i + 1] == rest[i];
      assert forall j :: 1 <= j < i + 1 ==> attributes[j] == rest[j - 1];
    }
  }

  /** The attribute scan with its early `break`. */
  method FindFileName(attributes: seq<DocumentAttribute>) returns (fileName: Option<string>)
    ensures fileName == FirstFileName(attributes)
  {
    fileName := None;
    var i := 0;
    while i < |attributes|
      invariant 0 <= i <= |attributes|
      invariant forall j :: 0 <= j < i ==> !attributes[j].FilenameAttribute?
      invariant FirstFileName(attributes) == FirstFileName(attributes[i..])
    {
      if attributes[i].FilenameAttribute? {
        fileName := Some(attributes[i].fileName);
        break;
      }
      assert attributes[i..][1..] == attributes[i + 1..];
      i := i + 1;
    }
  }

  predicate HasVideo(attributes: seq<DocumentAttribute>) {
    exists i :: 0 <= i < |attributes| && attributes[i].VideoAttribute?
  }

  predicate HasAudio(attributes: seq<DocumentAttribute>) {
    exists i :: 0 <= i < |attributes| && attributes[i].AudioAttribute?
  }

  /** The f-string's `': ' + file_name if file_name else ''`: an empty name is falsy. */
  function NameSuffix(fileName: Option<string>): string {
    if fileName.Some? && fileName.value != "" then ": " + fileName.value else ""
  }

  /** `[KIND]`, or `[KIND: name]` when a non-empty file name was found. */
  function Tagged(kind: string, fileName: Option<string>): string {
    "[" + kind + NameSuffix(fileName) + "]"
  }

  function DocumentMarker(attributes: seq<DocumentAttribute>, fileName: Option<string>): string {
    if HasVideo(attributes) then Tagged("VIDEO", fileName)
    else if HasAudio(attributes) then Tagged("AUDIO", fileName)
    else Tagged("FILE", fileName)
  }

  /** What the f-string shows for a web page title: empty without the attribute, "None" for a None title. */
  function TitleText(title: WebPageTitle): string {
    match title
    case NoTitleAttribute => ""
    case NullTitle => "None"
    case Title(t) => t
  }

  /** The marker for a message's media; None when the message has none. */
  function Describe(media: Option<Media>): (r: Option<string>)
    ensures r.None? <==> media.None?
    ensures r.Some? ==> r.value != ""
  {
    match media
    case None => None
    case Some(m) =>
      Some(match m
        case Photo => "[PHOTO]"
        case Document(attributes) => DocumentMarker(attributes, FirstFileName(attributes))
        case Geo => "[LOCATION]"
        case Contact => "[CONTACT]"
        case Poll(question) => "[POLL: " + question + "]"
        case WebPage(title) => "[WEBPAGE: " + TitleText(title) + "]"
        case OtherMedia => "[MEDIA]")
  }

  /** `get_media_description` itself, running the attribute scan. */
  method GetMediaDescription(media: Option<Media>) returns (description: Option<string>)
    ensures description == Describe(media)
  {
    if media.None? {
      return None;
    }
    match media.value
    case Photo => description := Some("[PHOTO]");
    case Document(attributes) =>
      var fileName := FindFileName(attributes);
      description := Some(DocumentMarker(attributes, fileName));
    case Geo => description := Some("[LOCATION]");
    case Contact => description := Some("[CONTACT]");
    case Poll(question) => description := Some("[POLL: " + question + "]");
    case WebPage(title) => description := Some("[WEBPAGE: " + TitleText(title) + "]");
    case OtherMedia => description := Some("[MEDIA]");
  }

  /**
   * Documents are classified video first, then audio, then generic file, and
   * the name suffix appears exactly when the first filename attribute holds a
   * non-empty name.
   */
  lemma DocumentPrecedence(attributes: seq<DocumentAttribute>)
    ensures var r := Describe(Some(Document(attributes))).value;
      var suffix := if FirstFileName(attributes).Some? && FirstFileName(attributes).value != ""
                    then ": " + FirstFileName(attributes).value else "";
      && (HasVideo(attributes) ==> r == "[VIDEO" + suffix + "]")
      && (!HasVideo(attributes) && HasAudio(attributes) ==> r == "[AUDIO" + suffix + "]")
      && (!HasVideo(attributes) && !HasAudio(attributes) ==> r == "[FILE" + suffix + "]")
  {
    var suffix := NameSuffix(FirstFileName(attributes));
    var r := Describe(Some(Document(attributes))).value;
    assert r == DocumentMarker(attributes, FirstFileName(attributes));
    if HasVideo(attributes) {
      assert "[" + "VIDEO" + suffix + "]" == "[VIDEO" + suffix + "]";
    } else if HasAudio(attributes) {
      assert "[" + "AUDIO" + suffix + "]" == "[AUDIO" + suffix + "]";
    } else {
      assert "[" + "FILE" + suffix + "]" == "[FILE" + suffix + "]";
    }
  }

  /** A tag wrapped in brackets starts with `[` and ends with `]`. */
  lemma Bracketed(inner: string)
    ensures var r := "[" + inner + "]";
      |r| >= 2 && r[0] == '[' && r[|r| - 1] == ']'
  {
  }

  /** A tag of any kind, with or without a file name, is bracketed. */
  lemma TaggedBracketed(kind: string, fileName: Option<string>)
    ensures var r := Tagged(kind, fileName);
      |r| >= 2 && r[0] == '[' && r[|r| - 1] == ']'
  {
    var inner := kind + NameSuffix(fileName);
    assert Tagged(kind, fileName) == "[" + inner + "]";
    Bracketed(inner);
  }

  /** A document's marker, whatever its kind and file name, is a bracketed tag. */
  lemma DocumentMarkerBracketed(attributes: seq<DocumentAttribute>)
    ensures var r := DocumentMarker(attributes, FirstFileName(attributes));
      |r| >= 2 && r[0] == '[' && r[|r| - 1] == ']'
  {
    var f := FirstFileName(attributes);
    if HasVideo(attributes) {
      TaggedBracketed("VIDEO", f);
    } else if HasAudio(attributes) {
      TaggedBracketed("AUDIO", f);
    } else {
      TaggedBracketed("FILE", f);
    }
  }

  /** Every marker is a bracketed tag, so no marker is mistaken for the empty string. */
  lemma MarkerIsBracketed(media: Media)
    ensures var r := Describe(Some(media)).value;
      |r| >= 2 && r[0] == '[' && r[|r| - 1] == ']'
  {
    var r := Describe(Some(media)).value;
    match media
    case Photo => Bracketed("PHOTO");
    case Document(attributes) => DocumentMarkerBracketed(attributes);
    case Geo => Bracketed("LOCATION");
    case Contact => Bracketed("CONTACT");
    case Poll(question) =>
      assert r == "[" + ("POLL: " + question) + "]";
      Bracketed("POLL: " + question);
    case WebPage(title) =>
      assert r == "[" + ("WEBPAGE: " + TitleText(title)) + "]";
      Bracketed("WEBPAGE: " + TitleText(title));
    case OtherMedia => Bracketed("MEDIA");
  }
}

=== FILE: sync.dfy ===
/**
 * One pass of `process_entity` over one chat: read the watermark, choose the
 * fetch window, fold the stream into a new watermark, normalise and archive
 * every message that carries something, commit the watermark, and render
 * the batch in reverse arrival order for the summarizer. The Telegram client and the
 * summarizer are parameters: `fetch` yields the messages of a window in the
 * order the client delivers them, `summarize` stands for the chat completion.
 */
module Sync {
  import opened Wrappers
  import Decimal
  import Telegram
  import Data
  import MediaMarker
  import Transcript

  /** How many messages a chat with no watermark is read back. */
  const RetrieveLimit: nat := 2

  /** What the pass asks the client for: the most recent `limit` messages, or all with id above `minId`. */
  datatype FetchWindow = Recent(limit: nat) | Since(minId: int)

  function NewHistory(lastKnown: Option<int>): bool {
    lastKnown.None?
  }

  /** `get_messages_fn`: a bounded cold start without a watermark, a catch-up above it otherwise. */
  function MessagesWindow(lastKnown: Option<int>): (w: FetchWindow)
    ensures w.Recent? <==> lastKnown.None?
    ensures w.Recent? ==> w.limit == RetrieveLimit
    ensures w.Since? ==> lastKnown == Some(w.minId)
  {
    if NewHistory(lastKnown) then Recent(RetrieveLimit) else Since(lastKnown.value)
  }

  /** What the client promises for a window: at most `limit` messages, or only ids above `minId`. */
  predicate Honours(window: FetchWindow, stream: seq<Telegram.RawMessage>) {
    match window
    case Recent(limit) => |stream| <= limit
    case Since(minId) => forall i :: 0 <= i < |stream| ==> stream[i].id > minId
  }

  /** `newest_message`: the larger of the running watermark and a new id. */
  function NewestMessage(latest: Option<int>, newId: int): (r: int)
    ensures r >= newId
    ensures latest.Some? ==> r >= latest.value
    ensures r == newId || latest == Some(r)
  {
    if latest.None? then newId
    else if latest.value >= newId then latest.value else newId
  }

  function Ids(stream: seq<Telegram.RawMessage>): (r: seq<int>)
    ensures |r| == |stream| && forall i :: 0 <= i < |stream| ==> r[i] == stream[i].id
  {
    seq(|stream|, i requires 0 <= i < |stream| => stream[i].id)
  }

  /** The watermark after folding `newest_message` over ids in arrival order. */
  function Watermark(start: Option<int>, ids: seq<int>): Option<int> {
    if ids == [] then start
    else Some(NewestMessage(Watermark(start, ids[..|ids| - 1]), ids[|ids| - 1]))
  }

  /**
   * The folded watermark is the maximum of the starting watermark and every
   * id seen: it bounds them all, is one of them, and is None only when there
   * was neither.
   */
  lemma {:induction false} WatermarkIsMax(start: Option<int>, ids: seq<int>)
    ensures Watermark(start, ids).None? <==> start.None? && ids == []
    ensures forall i :: 0 <= i < |ids| ==> ids[i] <= Watermark(start, ids).value
    ensures start.Some? ==> start.value <= Watermark(start, ids).value
    ensures Watermark(start, ids) == start || Watermark(start, ids).value in ids
    decreases |ids|
  {
    if ids != [] {
      var front := ids[..|ids| - 1];
      WatermarkIsMax(start, front);
      assert forall i :: 0 <= i < |front| ==> ids[i] == front[i];
    }
  }

  /** Arrival order does not matter: any reordering of the ids gives the same watermark. */
  lemma WatermarkOrderIndependent(start: Option<int>, a: seq<int>, b: seq<int>)
    requires multiset(a) == multiset(b)
    ensures Watermark(start, a) == Watermark(start, b)
  {
    WatermarkIsMax(start, a);
    WatermarkIsMax(start, b);
    assert forall x :: x in a <==> x in b by {
      forall x ensures x in a <==> x in b {
        assert x in a <==> x in multiset(a);
        assert x in b <==> x in multiset(b);
      }
    }
    assert a == [] <==> b == [] by {
      assert |a| == |multiset(a)| == |multiset(b)| == |b|;
    }
  }

  /** `message.text or ""`. */
  function TextOf(m: Telegram.RawMessage): string {
    if m.text.Some? then m.text.value else ""
  }

  /**
   * The normalised content of a message, or None when it is skipped: the
   * media marker and the text joined by a newline, the marker alone when the
   * text is empty, the text alone without media.
   */
  function Normalise(m: Telegram.RawMessage): (r: Option<string>)
    ensures r.None? <==> TextOf(m) == "" && m.media.None?
    ensures r.Some? ==> r.value != ""
  {
    var content := TextOf(m);
    var mediaDesc := MediaMarker.Describe(m.media);
    if content == "" && mediaDesc.None? then None
    else if mediaDesc.Some? then
      Some(if content != "" then mediaDesc.value + "\n" + content else mediaDesc.value)
    else Some(content)
  }

  /** Normalised content starts with the media marker, when there is one, and ends with the text, when there is one. */
  lemma NormaliseShape(m: Telegram.RawMessage)
    requires Normalise(m).Some?
    ensures m.media.Some? ==> MediaMarker.Describe(m.media).value <= Normalise(m).value
    ensures TextOf(m) != "" ==> |TextOf(m)| <= |Normalise(m).value| && Normalise(m).value[|Normalise(m).value| - |TextOf(m)|..] == TextOf(m)
  {
  }

  /** The batch entry of a kept message. */
  function EntryOf(entity: int, m: Telegram.RawMessage, content: string): Transcript.Entry {
    Transcript.Entry(m.id, entity, m.chatUsername, content)
  }

  /** The in-memory batch after a stream: one entry per kept message, in arrival order. */
  function Batch(entity: int, stream: seq<Telegram.RawMessage>): seq<Transcript.Entry> {
    if stream == [] then []
    else
      var m := stream[|stream| - 1];
      Batch(entity, stream[..|stream| - 1]) + (if Normalise(m).Some? then [EntryOf(entity, m, Normalise(m).value)] else [])
  }

  /** The plaintext the pass archives, by path: the last kept message with a given id wins. */
  function Archived(entityPath: Data.Path, stream: seq<Telegram.RawMessage>): map<Data.Path, string> {
    if stream == [] then map[]
    else
      var m := stream[|stream| - 1];
      var before := Archived(entityPath, stream[..|stream| - 1]);
      if Normalise(m).Some? then before[Data.MessagePath(entityPath, m.id) := Normalise(m).value] else before
  }

  /** Where the photo of a message is archived: `<entity_path>/photos/photo_<id>.jpg.age`. */
  function PhotoPath(entityPath: Data.Path, id: int): Data.Path {
    entityPath + ["photos", "photo_" + Decimal.IntToString(id) + ".jpg.age"]
  }

  /** The photo downloads the pass schedules, in arrival order. */
  function PhotoPaths(entityPath: Data.Path, stream: seq<Telegram.RawMessage>): seq<Data.Path> {
    if stream == [] then []
    else
      var m := stream[|stream| - 1];
      PhotoPaths(entityPath, stream[..|stream| - 1]) + (if m.media == Some(Telegram.Photo) then [PhotoPath(entityPath, m.id)] else [])
  }

  /** The files a text map becomes once every text is sealed by the store. */
  function SealAll(storage: Data.Storage, texts: map<Data.Path, string>): (r: map<Data.Path, Data.Age.Ciphertext>)
    requires storage.Valid()
    ensures r.Keys == texts.Keys
    ensures forall p :: p in r ==> Data.Age.Decrypt(r[p], [storage.identity]) == Some(Data.Utf8.Encode(texts[p]))
  {
    map p | p in texts :: storage.Seal(texts[p])
  }

  /** `summary`: nothing to summarise gives None without calling out. */
  function Summary(content: string, summarize: string -> Option<string>): (r: Option<string>)
    ensures content == "" ==> r == None
    ensures content != "" ==> r == summarize(content)
  {
    if content == "" then None else summarize(content)
  }

  /**
   * Every batch entry is the normalised form of a message of the stream, with
   * non-empty text: a message with neither text nor media never reaches the batch.
   */
  lemma {:induction false} BatchFromStream(entity: int, stream: seq<Telegram.RawMessage>)
    ensures |Batch(entity, stream)| <= |stream|
    ensures forall k :: 0 <= k < |Batch(entity, stream)| ==>
      Batch(entity, stream)[k].text != "" &&
      exists i :: 0 <= i < |stream| && Normalise(stream[i]).Some? &&
                  Batch(entity, stream)[k] == EntryOf(entity, stream[i], Normalise(stream[i]).value)
    decreases |stream|
  {
    if stream != [] {
      var n := |stream| - 1;
      var front := stream[..n];
      BatchFromStream(entity, front);
      var before := Batch(entity, front);
      var b := Batch(entity, stream);
      forall k | 0 <= k < |b|
        ensures b[k].text != "" &&
          exists i :: 0 <= i < |stream| && Normalise(stream[i]).Some? &&
                      b[k] == EntryOf(entity, stream[i], Normalise(stream[i]).value)
      {
        if k < |before| {
          assert b[k] == before[k];
          var i :| 0 <= i < |front| && Normalise(front[i]).Some? &&
                   before[k] == EntryOf(entity, front[i], Normalise(front[i]).value);
          assert front[i] == stream[i];
        } else {
          assert b[k] == EntryOf(entity, stream[n], Normalise(stream[n]).value);
        }
      }
    }
  }

  /** The batch of two stretches of the stream is the batch of the first followed by that of the second. */
  lemma {:induction false} BatchConcat(entity: int, a: seq<Telegram.RawMessage>, b: seq<Telegram.RawMessage>)
    ensures Batch(entity, a + b) == Batch(entity, a) + Batch(entity, b)
    decreases |b|
  {
    if b != [] {
      var b' := b[..|b| - 1];
      assert (a + b)[..|a + b| - 1] == a + b';
      BatchConcat(entity, a, b');
    } else {
      assert a + b == a;
    }
  }

  /**
   * A kept message contributes its entry to the batch at its place in the
   * stream: after the entries of the messages before it, before those after it.
   */
  lemma BatchSplit(entity: int, stream: seq<Telegram.RawMessage>, i: nat)
    requires i < |stream| && Normalise(stream[i]).Some?
    ensures Batch(entity, stream)
            == Batch(entity, stream[..i]) + [EntryOf(entity, stream[i], Normalise(stream[i]).value)] + Batch(entity, stream[i + 1..])
  {
    assert stream == stream[..i] + ([stream[i]] + stream[i + 1..]);
    BatchConcat(entity, stream[..i], [stream[i]] + stream[i + 1..]);
    BatchConcat(entity, [stream[i]], stream[i + 1..]);
    assert [stream[i]][..0] == [];
    assert Batch(entity, [stream[i]]) == [EntryOf(entity, stream[i], Normalise(stream[i]).value)];
  }

  /** Every kept message of the stream reaches the batch. */
  lemma BatchCovers(entity: int, stream: seq<Telegram.RawMessage>, i: nat)
    requires i < |stream| && Normalise(stream[i]).Some?
    ensures EntryOf(entity, stream[i], Normalise(stream[i]).value) in Batch(entity, stream)
  {
    BatchSplit(entity, stream, i);
    assert Batch(entity, stream)[|Batch(entity, stream[..i])|] == EntryOf(entity, stream[i], Normalise(stream[i]).value);
  }

  /** Kept messages appear in the batch in arrival order. */
  lemma BatchKeepsOrder(entity: int, stream: seq<Telegram.RawMessage>, i: nat, j: nat)
    requires i < j < |stream| && Normalise(stream[i]).Some? && Normalise(stream[j]).Some?
    ensures var batch := Batch(entity, stream);
      exists k1, k2 :: 0 <= k1 < k2 < |batch| &&
        batch[k1] == EntryOf(entity, stream[i], Normalise(stream[i]).value) &&
        batch[k2] == EntryOf(entity, stream[j], Normalise(stream[j]).value)
  {
    var batch := Batch(entity, stream);
    var front := stream[..j];
    BatchSplit(entity, stream, j);
    assert front[i] == stream[i];
    BatchCovers(entity, front, i);
    var e := EntryOf(entity, stream[i], Normalise(stream[i]).value);
    var k1 :| 0 <= k1 < |Batch(entity, front)| && Batch(entity, front)[k1] == e;
    var k2 := |Batch(entity, front)|;
    assert batch[k1] == e;
    assert batch[k2] == EntryOf(entity, stream[j], Normalise(stream[j]).value);
  }

  /** The archive written by a pass holds a file for every id of a kept message. */
  lemma {:induction false} ArchivedCovers(entityPath: Data.Path, stream: seq<Telegram.RawMessage>)
    ensures forall i :: 0 <= i < |stream| && Normalise(stream[i]).Some? ==>
      Data.MessagePath(entityPath, stream[i].id) in Archived(entityPath, stream)
    decreases |stream|
  {
    if stream != [] {
      var n := |stream| - 1;
      var front := stream[..n];
      ArchivedCovers(entityPath, front);
      var after := Archived(entityPath, stream);
      forall i | 0 <= i < |stream| && Normalise(stream[i]).Some?
        ensures Data.MessagePath(entityPath, stream[i].id) in after
      {
        if i < n {
          assert front[i] == stream[i];
        }
      }
    }
  }

  /**
   * Every file of the archive written by a pass belongs to a kept message of
   * the stream, and what it holds is never empty.
   */
  lemma {:induction false} ArchivedOrigin(entityPath: Data.Path, stream: seq<Telegram.RawMessage>)
    ensures forall p :: p in Archived(entityPath, stream) ==>
      Archived(entityPath, stream)[p] != "" &&
      exists i :: 0 <= i < |stream| && Normalise(stream[i]).Some? && p == Data.MessagePath(entityPath, stream[i].id)
    decreases |stream|
  {
    if stream != [] {
      var n := |stream| - 1;
      var front := stream[..n];
      ArchivedOrigin(entityPath, front);
      var before := Archived(entityPath, front);
      var after := Archived(entityPath, stream);
      var q := Data.MessagePath(entityPath, stream[n].id);
      forall p | p in after
        ensures after[p] != "" &&
          exists i :: 0 <= i < |stream| && Normalise(stream[i]).Some? && p == Data.MessagePath(entityPath, stream[i].id)
      {
        if Normalise(stream[n]).Some? && p == q {
          assert after[p] == Normalise(stream[n]).value;
        } else {
          assert p in before && after[p] == before[p];
          var i :| 0 <= i < |front| && Normalise(front[i]).Some? && p == Data.MessagePath(entityPath, front[i].id);
          assert front[i] == stream[i];
        }
      }
    }
  }

  /**
   * Re-writing an id overwrites: the file of an id holds the content of the
   * last kept message with that id.
   */
  lemma {:induction false} ArchivedLastWins(entityPath: Data.Path, stream: seq<Telegram.RawMessage>, i: nat)
    requires i < |stream| && Normalise(stream[i]).Some?
    requires forall j :: i < j < |stream| && stream[j].id == stream[i].id ==> Normalise(stream[j]).None?
    ensures Data.MessagePath(entityPath, stream[i].id) in Archived(entityPath, stream)
    ensures Archived(entityPath, stream)[Data.MessagePath(entityPath, stream[i].id)] == Normalise(stream[i]).value
    decreases |stream|
  {
    var last := stream[|stream| - 1];
    var front := stream[..|stream| - 1];
    var p := Data.MessagePath(entityPath, stream[i].id);
    if i < |stream| - 1 {
      assert front[i] == stream[i];
      ArchivedLastWins(entityPath, front, i);
      var before := Archived(entityPath, front);
      assert p in before && before[p] == Normalise(stream[i]).value;
      if Normalise(last).Some? {
        Data.MessagePathsDistinct(entityPath, last.id, stream[i].id);
        assert Archived(entityPath, stream) == before[Data.MessagePath(entityPath, last.id) := Normalise(last).value];
      } else {
        assert Archived(entityPath, stream) == before;
      }
    }
  }

  /** A union whose right-hand map covers every key of an earlier right-hand map overrides it entirely. */
  lemma UnionAbsorbs<K, V>(files: map<K, V>, partial: map<K, V>, full: map<K, V>)
    requires partial.Keys <= full.Keys
    ensures (files + partial) + full == files + full
  {
  }

  /** The files a pass archives for a prefix of the stream are among those it archives for the whole stream. */
  lemma ArchivedPrefixKeys(entityPath: Data.Path, stream: seq<Telegram.RawMessage>, k: nat)
    requires k <= |stream|
    ensures Archived(entityPath, stream[..k]).Keys <= Archived(entityPath, stream).Keys
  {
    var prefix := stream[..k];
    ArchivedOrigin(entityPath, prefix);
    ArchivedCovers(entityPath, stream);
    forall p | p in Archived(entityPath, prefix)
      ensures p in Archived(entityPath, stream)
    {
      var i :| 0 <= i < |prefix| && Normalise(prefix[i]).Some? && p == Data.MessagePath(entityPath, prefix[i].id);
      assert prefix[i] == stream[i];
    }
  }

  /**
   * A pass interrupted after archiving its first k messages, before the
   * watermark was committed, is resumed by running it again: the next pass
   * starts from the same watermark, and when the client delivers the same
   * messages its writes leave exactly the files of one uninterrupted pass.
   */
  lemma ResumeAfterPartialPass(storage: Data.Storage, files: map<Data.Path, Data.Age.Ciphertext>,
                               entityPath: Data.Path, stream: seq<Telegram.RawMessage>, k: nat)
    requires storage.Valid() && k <= |stream|
    ensures (files + SealAll(storage, Archived(entityPath, stream[..k]))) + SealAll(storage, Archived(entityPath, stream))
            == files + SealAll(storage, Archived(entityPath, stream))
  {
    ArchivedPrefixKeys(entityPath, stream, k);
    UnionAbsorbs(files, SealAll(storage, Archived(entityPath, stream[..k])), SealAll(storage, Archived(entityPath, stream)));
  }

  /**
   * The writes of an interrupted pass never touch the chat's watermark file,
   * so the next pass reads the watermark the interrupted one started from.
   */
  lemma PartialPassKeepsWatermark(storage: Data.Storage, entity: int, stream: seq<Telegram.RawMessage>, k: nat)
    requires storage.Valid() && k <= |stream|
    ensures storage.MetaLastMsgPath(entity) !in Archived(storage.EntityPath(entity), stream[..k])
  {
    var entityPath := storage.EntityPath(entity);
    var prefix := stream[..k];
    ArchivedOrigin(entityPath, prefix);
    if storage.MetaLastMsgPath(entity) in Archived(entityPath, prefix) {
      var i :| 0 <= i < |prefix| && Normalise(prefix[i]).Some? && storage.MetaLastMsgPath(entity) == Data.MessagePath(entityPath, prefix[i].id);
      storage.PathsDisjoint(entity, prefix[i].id, entity, 0);
    }
  }

  /** Every photo message of the stream is kept and has its download scheduled. */
  lemma {:induction false} PhotoPathsCover(entityPath: Data.Path, stream: seq<Telegram.RawMessage>)
    ensures |PhotoPaths(entityPath, stream)| <= |stream|
    ensures forall i :: 0 <= i < |stream| && stream[i].media == Some(Telegram.Photo) ==>
      Normalise(stream[i]).Some? && PhotoPath(entityPath, stream[i].id) in PhotoPaths(entityPath, stream)
    decreases |stream|
  {
    if stream != [] {
      var n := |stream| - 1;
      var front := stream[..n];
      PhotoPathsCover(entityPath, front);
      var after := PhotoPaths(entityPath, stream);
      assert after == PhotoPaths(entityPath, front) + (if stream[n].media == Some(Telegram.Photo) then [PhotoPath(entityPath, stream[n].id)] else []);
      forall i | 0 <= i < |stream| && stream[i].media == Some(Telegram.Photo)
        ensures Normalise(stream[i]).Some? && PhotoPath(entityPath, stream[i].id) in after
      {
        if i < n {
          assert front[i] == stream[i];
        }
      }
    }
  }

  /** Every scheduled download belongs to a photo message of the stream. */
  lemma {:induction false} PhotoPathsOrigin(entityPath: Data.Path, stream: seq<Telegram.RawMessage>)
    ensures forall p :: p in PhotoPaths(entityPath, stream) ==>
      exists i :: 0 <= i < |stream| && stream[i].media == Some(Telegram.Photo) && p == PhotoPath(entityPath, stream[i].id)
    decreases |stream|
  {
    if stream != [] {
      var n := |stream| - 1;
      var front := stream[..n];
      PhotoPathsOrigin(entityPath, front);
      var before := PhotoPaths(entityPath, front);
      var after := PhotoPaths(entityPath, stream);
      assert after == before + (if stream[n].media == Some(Telegram.Photo) then [PhotoPath(entityPath, stream[n].id)] else []);
      forall p | p in after
        ensures exists i :: 0 <= i < |stream| && stream[i].media == Some(Telegram.Photo) && p == PhotoPath(entityPath, stream[i].id)
      {
        if p in before {
          var i :| 0 <= i < |front| && front[i].media == Some(Telegram.Photo) && p == PhotoPath(entityPath, front[i].id);
          assert front[i] == stream[i];
        } else {
          assert stream[n].media == Some(Telegram.Photo) && p == PhotoPath(entityPath, stream[n].id);
        }
      }
    }
  }

  /**
   * The pass schedules one photo download per photo message of the stream,
   * and no other; a photo message always carries a marker, so it is kept.
   */
  lemma PhotoPathsArePhotos(entityPath: Data.Path, stream: seq<Telegram.RawMessage>)
    ensures |PhotoPaths(entityPath, stream)| <= |stream|
    ensures forall i :: 0 <= i < |stream| && stream[i].media == Some(Telegram.Photo) ==>
      Normalise(stream[i]).Some? && PhotoPath(entityPath, stream[i].id) in PhotoPaths(entityPath, stream)
    ensures forall p :: p in PhotoPaths(entityPath, stream) ==>
      exists i :: 0 <= i < |stream| && stream[i].media == Some(Telegram.Photo) && p == PhotoPath(entityPath, stream[i].id)
  {
    PhotoPathsCover(entityPath, stream);
    PhotoPathsOrigin(entityPath, stream);
  }

  /**
   * When the client honours the window, a cold start keeps at most
   * RetrieveLimit messages, and a catch-up keeps and archives only ids above
   * the watermark.
   */
  lemma WindowBoundsPass(start: Option<int>, entity: int, entityPath: Data.Path, stream: seq<Telegram.RawMessage>)
    requires Honours(MessagesWindow(start), stream)
    ensures start.None? ==> |Batch(entity, stream)| <= RetrieveLimit && |Archived(entityPath, stream)| <= RetrieveLimit
    ensures start.Some? ==> forall k :: 0 <= k < |Batch(entity, stream)| ==> Batch(entity, stream)[k].id > start.value
    ensures start.Some? ==> forall p :: p in Archived(entityPath, stream) ==>
      exists id :: id > start.value && p == Data.MessagePath(entityPath, id)
  {
    BatchFromStream(entity, stream);
    ArchivedCovers(entityPath, stream);
    ArchivedOrigin(entityPath, stream);
    if start.None? {
      ArchivedSize(entityPath, stream);
    }
  }

  lemma {:induction false} ArchivedSize(entityPath: Data.Path, stream: seq<Telegram.RawMessage>)
    ensures |Archived(entityPath, stream)| <= |stream|
    decreases |stream|
  {
    if stream != [] {
      ArchivedSize(entityPath, stream[..|stream| - 1]);
    }
  }

  /** Overriding one key after a union is overriding it in the right-hand map. */
  lemma UnionUpdate<K, V>(base: map<K, V>, m: map<K, V>, k: K, v: V)
    ensures (base + m)[k := v] == base + m[k := v]
  {
  }

  /** Sealing one more text on top of an archive is sealing the updated text map. */
  lemma SealAllUpdate(storage: Data.Storage, base: map<Data.Path, Data.Age.Ciphertext>,
                      texts: map<Data.Path, string>, p: Data.Path, text: string)
    requires storage.Valid()
    ensures (base + SealAll(storage, texts))[p := storage.Seal(text)] == base + SealAll(storage, texts[p := text])
  {
    var before := SealAll(storage, texts);
    var after := SealAll(storage, texts[p := text]);
    assert after.Keys == before[p := storage.Seal(text)].Keys;
    forall k | k in after
      ensures after[k] == before[p := storage.Seal(text)][k]
    {
      if k != p {
        assert after[k] == storage.Seal(texts[k]) == before[k];
      }
    }
    assert after == before[p := storage.Seal(text)];
    UnionUpdate(base, before, p, storage.Seal(text));
  }

  /** What one more message of the stream adds to each of the pass's running values. */
  lemma PrefixStep(entity: int, entityPath: Data.Path, start: Option<int>, stream: seq<Telegram.RawMessage>, i: nat)
    requires i < |stream|
    ensures var m := stream[i];
      && Watermark(start, Ids(stream)[..i + 1]) == Some(NewestMessage(Watermark(start, Ids(stream)[..i]), m.id))
      && Batch(entity, stream[..i + 1])
         == Batch(entity, stream[..i]) + (if Normalise(m).Some? then [EntryOf(entity, m, Normalise(m).value)] else [])
      && Archived(entityPath, stream[..i + 1])
         == (if Normalise(m).Some? then Archived(entityPath, stream[..i])[Data.MessagePath(entityPath, m.id) := Normalise(m).value]
             else Archived(entityPath, stream[..i]))
      && PhotoPaths(entityPath, stream[..i + 1])
         == PhotoPaths(entityPath, stream[..i]) + (if m.media == Some(Telegram.Photo) then [PhotoPath(entityPath, m.id)] else [])
  {
    assert stream[..i + 1][..i] == stream[..i];
    assert Ids(stream)[..i + 1][..i] == Ids(stream)[..i];
  }

  /**
   * `process_entity` for one entity. A watermark file that cannot be read
   * ends the pass before anything is written. Otherwise the pass archives
   * the normalised content of every kept message, commits the folded
   * watermark when there is one, and returns the summary of the batch
   * rendered in reverse arrival order, together with the photo downloads it scheduled.
   */
  method ProcessEntity(storage: Data.Storage, entity: int,
                       fetch: FetchWindow -> seq<Telegram.RawMessage>,
                       summarize: string -> Option<string>)
    returns (result: Result<Option<string>, Data.StoreError>, photoPaths: seq<Data.Path>)
    requires storage.Valid()
    modifies storage
    ensures old(storage.GetLastKnownMsg(entity)).Failure? ==>
      && result == Failure(old(storage.GetLastKnownMsg(entity)).error)
      && storage.files == old(storage.files) && photoPaths == []
    ensures old(storage.GetLastKnownMsg(entity)).Success? ==>
      var start := old(storage.GetLastKnownMsg(entity)).value;
      var stream := fetch(MessagesWindow(start));
      var entityPath := storage.EntityPath(entity);
      var mark := Watermark(start, Ids(stream));
      var archived := old(storage.files) + SealAll(storage, Archived(entityPath, stream));
      && storage.files == (if mark.Some? then archived[storage.MetaLastMsgPath(entity) := storage.Seal(Decimal.IntToString(mark.value))] else archived)
      && storage.GetLastKnownMsg(entity) == Success(mark)
      && photoPaths == PhotoPaths(entityPath, stream)
      && result == Success(Summary(Transcript.Render(Transcript.Reverse(Batch(entity, stream))), summarize))
  {
    var lastKnown := storage.GetLastKnownMsg(entity);
    if lastKnown.Failure? {
      return Failure(lastKnown.error), [];
    }
    var start := lastKnown.value;
    var entityPath := storage.EntityPath(entity);
    var stream := fetch(MessagesWindow(start));
    ghost var base := storage.files;
    var latest := start;
    var messages: seq<Transcript.Entry> := [];
    photoPaths := [];
    var i := 0;
    while i < |stream|
      invariant 0 <= i <= |stream|
      invariant latest == Watermark(start, Ids(stream)[..i])
      invariant messages == Batch(entity, stream[..i])
      invariant storage.files == base + SealAll(storage, Archived(entityPath, stream[..i]))
      invariant photoPaths == PhotoPaths(entityPath, stream[..i])
    {
      var message := stream[i];
      PrefixStep(entity, entityPath, start, stream, i);
      latest := Some(NewestMessage(latest, message.id));
      var content := TextOf(message);
      var mediaDesc := MediaMarker.GetMediaDescription(message.media);
      if content == "" && mediaDesc.None? {
        i := i + 1;
        continue;
      }
      if mediaDesc.Some? {
        content := if content != "" then mediaDesc.value + "\n" + content else mediaDesc.value;
      }
      assert Normalise(message) == Some(content);
      SealAllUpdate(storage, base, Archived(entityPath, stream[..i]), Data.MessagePath(entityPath, message.id), content);
      storage.WriteMessage(entityPath, message.id, content);
      if message.media == Some(Telegram.Photo) {
        photoPaths := photoPaths + [PhotoPath(entityPath, message.id)];
      }
      messages := messages + [EntryOf(entity, message, content)];
      i := i + 1;
    }
    assert stream[..i] == stream && Ids(stream)[..i] == Ids(stream);
    ghost var archived := storage.files;
    if latest.Some? {
      storage.WriteLastKnownMsg(entity, latest);
    } else {
      // Nothing was seen and nothing was known: the watermark file stays absent.
      ArchivedCovers(entityPath, stream);
      ArchivedOrigin(entityPath, stream);
      assert stream == [];
    }
    var transcript := Transcript.Messages2Text(Transcript.Reverse(messages));
    result := Success(Summary(transcript, summarize));
  }

  /** The summarizer is consulted exactly when the batch is non-empty. */
  lemma SummaryOnlyForNonEmptyBatch(batch: seq<Transcript.Entry>, summarize: string -> Option<string>)
    ensures batch == [] ==> Summary(Transcript.Render(Transcript.Reverse(batch)), summarize) == None
    ensures batch != [] ==> Summary(Transcript.Render(Transcript.Reverse(batch)), summarize)
                            == summarize(Transcript.Render(Transcript.Reverse(batch)))
  {
    Transcript.RenderEmptyIff(Transcript.Reverse(batch));
  }

  /**
   * A cold start that sees a text message 10 and then a photo-only message 9:
   * both are archived (the second as its marker), the watermark becomes 10,
   * one photo download is scheduled, and the transcript lists 9 before 10.
   */
  lemma ColdStartScenario(entity: int, entityPath: Data.Path)
    ensures var m10 := Telegram.RawMessage(10, Some("hello"), None, Some("chan"));
      var m9 := Telegram.RawMessage(9, Some(""), Some(Telegram.Photo), Some("chan"));
      var stream := [m10, m9];
      && MessagesWindow(None) == Recent(2)
      && Watermark(None, Ids(stream)) == Some(10)
      && Batch(entity, stream) == [EntryOf(entity, m10, "hello"), EntryOf(entity, m9, "[PHOTO]")]
      && Transcript.Reverse(Batch(entity, stream)) == [EntryOf(entity, m9, "[PHOTO]"), EntryOf(entity, m10, "hello")]
      && Archived(entityPath, stream) == map[Data.MessagePath(entityPath, 10) := "hello", Data.MessagePath(entityPath, 9) := "[PHOTO]"]
      && PhotoPaths(entityPath, stream) == [PhotoPath(entityPath, 9)]
  {
    var m10 := Telegram.RawMessage(10, Some("hello"), None, Some("chan"));
    var m9 := Telegram.RawMessage(9, Some(""), Some(Telegram.Photo), Some("chan"));
    var stream := [m10, m9];
    assert stream[..1] == [m10] && [m10][..0] == [];
    assert |stream| == 2 && stream[|stream| - 1] == m9 && stream[..|stream| - 1] == [m10];
    assert Ids(stream) == [10, 9] && Ids(stream)[..1] == [10] && [10][..0] == [];
    assert Normalise(m10) == Some("hello");
    assert MediaMarker.Describe(m9.media) == Some("[PHOTO]");
    assert Normalise(m9) == Some("[PHOTO]");
    var first := Batch(entity, [m10]);
    assert first == Batch(entity, []) + [EntryOf(entity, m10, "hello")];
    assert Batch(entity, stream) == first + [EntryOf(entity, m9, "[PHOTO]")];
    var archivedFirst := Archived(entityPath, [m10]);
    assert archivedFirst == Archived(entityPath, [])[Data.MessagePath(entityPath, 10) := "hello"];
    assert Archived(entityPath, stream) == archivedFirst[Data.MessagePath(entityPath, 9) := "[PHOTO]"];
    assert PhotoPaths(entityPath, [m10]) == [];
    assert PhotoPaths(entityPath, stream) == [] + [PhotoPath(entityPath, 9)];
  }

  /** Arrival order 5, 4, 3 is rendered 3, 4, 5. */
  lemma ArrivalOrderReversed(entity: int, e5: Transcript.Entry, e4: Transcript.Entry, e3: Transcript.Entry)
    requires e5.id == 5 && e4.id == 4 && e3.id == 3
    ensures Transcript.Render(Transcript.Reverse([e5, e4, e3]))
            == Transcript.Block(e3) + Transcript.Delimiter + Transcript.Block(e4) + Transcript.Delimiter + Transcript.Block(e5)
  {
    var r := Transcript.Reverse([e5, e4, e3]);
    assert r == [e3, e4, e5];
    assert [e3] + [e4, e5] == r && [e4] + [e5] == [e4, e5];
    Transcript.RenderConcat([e3], [e4, e5]);
    Transcript.RenderConcat([e4], [e5]);
    Transcript.RenderSmall(e3);
    Transcript.RenderSmall(e4);
    Transcript.RenderSmall(e5);
  }

  /**
   * What data.py's two-argument `write_message` would archive for a
   * photo-only message is its raw text, the empty string, where the
   * normalised content is the marker `[PHOTO]`; with no text field at all it
   * would raise instead.
   */
  lemma AsWrittenArchiveLosesMarker()
    ensures var m := Telegram.RawMessage(9, Some(""), Some(Telegram.Photo), None);
      m.text == Some("") && Normalise(m) == Some("[PHOTO]") && m.text.value != Normalise(m).value
    ensures var m := Telegram.RawMessage(9, None, Some(Telegram.Photo), None);
      m.text.None? && Normalise(m) == Some("[PHOTO]")
  {
  }
}

=== FILE: telegram.dfy ===
/**
 * The shape of what the Telegram client hands the sync engine: one record
 * per message, with its id, its text, its media payload (reduced to the
 * kinds the engine tells apart) and the username of its chat.
 */
module Telegram {
  import opened Wrappers

  /** The document attributes the media marker looks at; every other attribute is OtherAttribute. */
  datatype DocumentAttribute =
    | FilenameAttribute(fileName: string)
    | VideoAttribute
    | AudioAttribute
    | OtherAttribute

  /**
   * The title of a web-page preview: the preview may lack the attribute
   * altogether (a pending or empty preview), carry it set to None, or carry a string.
   */
  datatype WebPageTitle = NoTitleAttribute | NullTitle | Title(title: string)

  /** A message's media payload, one constructor per kind the engine distinguishes. */
  datatype Media =
    | Photo
    | Document(attributes: seq<DocumentAttribute>)
    | Geo
    | Contact
    | Poll(question: string)
    | WebPage(title: WebPageTitle)
    | OtherMedia

  /**
   * A message as the client yields it: `text` is None for messages that
   * carry no text field at all, `media` None when nothing is attached, and
   * `chatUsername` is what resolving the message's chat returns (None for a
   * chat without a public username).
   */
  datatype RawMessage = RawMessage(id: int, text: Option<string>, media: Option<Media>, chatUsername: Option<string>)
}

=== FILE: transcript.dfy ===
/**
 * `messages2text`: the transcript handed to the summarizer. Each batch
 * entry becomes one block carrying its permalink `https://t.me/<user>/<id>`,
 * the username and the text; blocks are joined, in the order given, by a
 * fixed delimiter line.
 */
module Transcript {
  import opened Wrappers
  import Decimal

  /** One entry of the in-memory batch: the dict `process_entity` appends. */
  datatype Entry = Entry(id: int, entity: int, username: Option<string>, text: string)

  const Delimiter := "\n=-=-=-=-=\n"

  /** How an f-string shows an optional string: None shows as "None". */
  function Shown(s: Option<string>): string {
    match s
    case None => "None"
    case Some(t) => t
  }

  function Permalink(username: Option<string>, id: int): string {
    "https://t.me/" + Shown(username) + "/" + Decimal.IntToString(id)
  }

  /** `url: <permalink>\nusername: <username>\n text:<text>`. */
  function Block(e: Entry): string {
    "url: " + Permalink(e.username, e.id) + "\nusername: " + Shown(e.username) + "\n text:" + e.text
  }

  /** Whatever follows a text, the text is a prefix of the whole. */
  lemma PrefixOfConcat(a: string, b: string)
    ensures a <= a + b
  {
  }

  /** A block opens with `url: ` and the message's permalink, and closes with the message text. */
  lemma BlockShape(e: Entry)
    ensures var b := Block(e);
      && "url: " + Permalink(e.username, e.id) <= b
      && |e.text| <= |b| && b[|b| - |e.text|..] == e.text
  {
    var url := "url: " + Permalink(e.username, e.id);
    var withName := url + "\nusername: " + Shown(e.username);
    var head := withName + "\n text:";
    assert Block(e) == head + e.text;
    PrefixOfConcat(url, "\nusername: " + Shown(e.username));
    assert url + "\nusername: " + Shown(e.username) == url + ("\nusername: " + Shown(e.username));
    PrefixOfConcat(withName, "\n text:");
    PrefixOfConcat(head, e.text);
  }

  function Blocks(entries: seq<Entry>): (r: seq<string>)
    ensures |r| == |entries|
    ensures forall i :: 0 <= i < |entries| ==> r[i] == Block(entries[i])
  {
    seq(|entries|, i requires 0 <= i < |entries| => Block(entries[i]))
  }

  /** Python's `sep.join(parts)`. */
  function Join(parts: seq<string>, sep: string): string {
    if parts == [] then ""
    else if |parts| == 1 then parts[0]
    else Join(parts[..|parts| - 1], sep) + sep + parts[|parts| - 1]
  }

  /** The transcript of a batch, in the batch's own order. */
  function Render(entries: seq<Entry>): string {
    Join(Blocks(entries), Delimiter)
  }

  /** `messages2text`: build the list of blocks with an append loop, then join it. */
  method Messages2Text(entries: seq<Entry>) returns (text: string)
    ensures text == Render(entries)
  {
    var parts: seq<string> := [];
    for i := 0 to |entries|
      invariant |parts| == i
      invariant forall j :: 0 <= j < i ==> parts[j] == Block(entries[j])
    {
      parts := parts + [Block(entries[i])];
    }
    assert parts == Blocks(entries);
    text := Join(parts, Delimiter);
  }

  /** Joining two non-empty lists is joining each and putting one separator between. */
  lemma {:induction false} JoinConcat(a: seq<string>, b: seq<string>, sep: string)
    requires a != [] && b != []
    ensures Join(a + b, sep) == Join(a, sep) + sep + Join(b, sep)
    decreases |b|
  {
    if |b| == 1 {
      assert (a + b)[..|a + b| - 1] == a;
    } else {
      var b' := b[..|b| - 1];
      assert (a + b)[..|a + b| - 1] == a + b';
      JoinConcat(a, b', sep);
    }
  }

  /**
   * The transcript of a concatenation is the two transcripts with one
   * delimiter between: blocks keep the input order and n - 1 delimiters
   * are inserted between n blocks.
   */
  lemma RenderConcat(a: seq<Entry>, b: seq<Entry>)
    requires a != [] && b != []
    ensures Render(a + b) == Render(a) + Delimiter + Render(b)
  {
    assert Blocks(a + b) == Blocks(a) + Blocks(b);
    JoinConcat(Blocks(a), Blocks(b), Delimiter);
  }

  /** No entries render as the empty transcript; one entry renders as its block alone. */
  lemma RenderSmall(e: Entry)
    ensures Render([]) == ""
    ensures Render([e]) == Block(e)
  {
  }

  function SumLengths(parts: seq<string>): nat {
    if parts == [] then 0 else SumLengths(parts[..|parts| - 1]) + |parts[|parts| - 1]|
  }

  /** Joining n >= 1 parts inserts n - 1 separators and nothing else. */
  lemma {:induction false} JoinLength(parts: seq<string>, sep: string)
    requires parts != []
    ensures |Join(parts, sep)| == SumLengths(parts) + (|parts| - 1) * |sep|
    decreases |parts|
  {
    if |parts| > 1 {
      var n := |parts| - 1;
      JoinLength(parts[..n], sep);
      assert |Join(parts, sep)| == |Join(parts[..n], sep)| + |sep| + |parts[n]|;
      assert (n - 1) * |sep| + |sep| == n * |sep|;
    }
  }

  /** A transcript of n >= 1 entries is its blocks plus the n - 1 delimiters inserted between them. */
  lemma RenderLength(entries: seq<Entry>)
    requires entries != []
    ensures |Render(entries)| == SumLengths(Blocks(entries)) + (|entries| - 1) * |Delimiter|
  {
    JoinLength(Blocks(entries), Delimiter);
  }

  /** The batch in reverse: `reversed(messages)`. */
  function Reverse<T>(s: seq<T>): (r: seq<T>)
    ensures |r| == |s|
    ensures forall i :: 0 <= i < |s| ==> r[i] == s[|s| - 1 - i]
  {
    if s == [] then [] else Reverse(s[1..]) + [s[0]]
  }

  /** Reversal puts the arrival-order head last: a stream delivered newest first is rendered oldest first. */
  lemma RenderReversedCons(e: Entry, rest: seq<Entry>)
    requires rest != []
    ensures Render(Reverse([e] + rest)) == Render(Reverse(rest)) + Delimiter + Block(e)
  {
    assert Reverse([e] + rest) == Reverse(rest) + [e];
    RenderConcat(Reverse(rest), [e]);
  }

  /** When the stream arrives newest-first (ids strictly decreasing), the reversed batch is in ascending id order. */
  lemma ReverseIsChronological(batch: seq<Entry>)
    requires forall i, j :: 0 <= i < j < |batch| ==> batch[i].id > batch[j].id
    ensures forall i, j :: 0 <= i < j < |batch| ==> Reverse(batch)[i].id < Reverse(batch)[j].id
  {
  }

  /** The transcript is empty exactly when the batch is: an empty batch is "nothing to summarise". */
  lemma RenderEmptyIff(entries: seq<Entry>)
    ensures Render(entries) == "" <==> entries == []
  {
    if entries != [] {
      var last := entries[|entries| - 1];
      assert Blocks(entries)[|entries| - 1] == Block(last);
      assert |Block(last)| > 0;
    }
  }
}

=== FILE: utf8.dfy ===
/**
 * Strict UTF-8, as Python's `str.encode("utf-8", errors="strict")` and
 * `bytes.decode("utf-8", errors="strict")` use it in the store: every Dafny
 * `char` is a Unicode scalar value, so encoding cannot fail; decoding rejects
 * stray continuation bytes, truncated sequences, overlong forms, surrogates
 * and code points above U+10FFFF.
 */
module Utf8 {
  import opened Wrappers

  type byte = b: int | 0 <= b < 256

  predicate IsContinuation(b: byte) {
    0x80 <= b < 0xC0
  }

  /** The one to four bytes of a single scalar value. */
  function EncodeChar(c: char): (r: seq<byte>)
    ensures 1 <= |r| <= 4
    ensures |r| == 1 <==> (c as int) < 0x80
    ensures forall i :: 1 <= i < |r| ==> IsContinuation(r[i])
  {
    var n := c as int;
    if n < 0x80 then [n]
    else if n < 0x800 then [0xC0 + n / 64, 0x80 + n % 64]
    else if n < 0x10000 then [0xE0 + n / 4096, 0x80 + (n / 64) % 64, 0x80 + n % 64]
    else [0xF0 + n / 262144, 0x80 + (n / 4096) % 64, 0x80 + (n / 64) % 64, 0x80 + n % 64]
  }

  function Encode(s: string): (r: seq<byte>)
    ensures s == [] <==> r == []
  {
    if s == [] then [] else EncodeChar(s[0]) + Encode(s[1..])
  }

  /** Decodes the scalar value at the head of `b`, with the number of bytes it took. */
  function DecodeFirst(b: seq<byte>): (r: Option<(char, nat)>)
    requires |b| > 0
    ensures r.Some? ==> 1 <= r.value.1 <= |b| && r.value.1 <= 4
  {
    var b0 := b[0];
    if b0 < 0x80 then
      Some((b0 as char, 1))
    else if 0xC2 <= b0 <= 0xDF then
      if |b| >= 2 && IsContinuation(b[1]) then
        Some((((b0 as int - 0xC0) * 64 + (b[1] as int - 0x80)) as char, 2))
      else None
    else if 0xE0 <= b0 <= 0xEF then
      if |b| >= 3 && IsContinuation(b[1]) && IsContinuation(b[2]) then
        var n := (b0 as int - 0xE0) * 4096 + (b[1] as int - 0x80) * 64 + (b[2] as int - 0x80);
        if n < 0x800 || (0xD800 <= n && n <= 0xDFFF) then None else Some((n as char, 3))
      else None
    else if 0xF0 <= b0 <= 0xF4 then
      if |b| >= 4 && IsContinuation(b[1]) && IsContinuation(b[2]) && IsContinuation(b[3]) then
        var n := (b0 as int - 0xF0) * 262144 + (b[1] as int - 0x80) * 4096 + (b[2] as int - 0x80) * 64 + (b[3] as int - 0x80);
        if n < 0x10000 || n > 0x10FFFF then None else Some((n as char, 4))
      else None
    else
      None
  }

  /** Strict decoding: None is the UnicodeDecodeError case. */
  function Decode(b: seq<byte>): (r: Option<string>)
    ensures b == [] ==> r == Some([])
    decreases |b|
  {
    if b == [] then Some([])
    else match DecodeFirst(b)
      case None => None
      case Some((c, k)) =>
        match Decode(b[k..])
        case None => None
        case Some(rest) => Some([c] + rest)
  }

  lemma DivMod64(hi: int, lo: int)
    requires 0 <= lo < 64
    ensures (hi * 64 + lo) / 64 == hi && (hi * 64 + lo) % 64 == lo
  {
  }

  lemma SplitTwo(n: int)
    requires 0x80 <= n < 0x800
    ensures 2 <= n / 64 <= 31 && (n / 64) * 64 + n % 64 == n
  {
  }

  lemma SplitThree(n: int)
    requires 0x800 <= n < 0x10000
    ensures 0 <= n / 4096 < 16 && (n / 4096) * 4096 + ((n / 64) % 64) * 64 + n % 64 == n
  {
    var q := n / 64;
    assert n == q * 64 + n % 64;
    assert q == (q / 64) * 64 + q % 64;
    assert n / 4096 == q / 64;
  }

  lemma SplitFour(n: int)
    requires 0x10000 <= n <= 0x10FFFF
    ensures 0 <= n / 262144 <= 4
    ensures (n / 262144) * 262144 + ((n / 4096) % 64) * 4096 + ((n / 64) % 64) * 64 + n % 64 == n
  {
    var q := n / 64;
    var q2 := q / 64;
    assert n == q * 64 + n % 64;
    assert q == q2 * 64 + q % 64;
    assert q2 == (q2 / 64) * 64 + q2 % 64;
    assert n / 4096 == q2;
    assert n / 262144 == q2 / 64;
  }

  /** Decoding the encoding of one scalar value gives it back, whatever follows. */
  lemma DecodeFirstEncodeChar(c: char, rest: seq<byte>)
    ensures DecodeFirst(EncodeChar(c) + rest) == Some((c, |EncodeChar(c)|))
  {
    var n := c as int;
    var b := EncodeChar(c) + rest;
    if n < 0x80 {
    } else if n < 0x800 {
      SplitTwo(n);
      assert b[0] == 0xC0 + n / 64 && b[1] == 0x80 + n % 64;
    } else if n < 0x10000 {
      SplitThree(n);
      assert b[0] == 0xE0 + n / 4096 && b[1] == 0x80 + (n / 64) % 64 && b[2] == 0x80 + n % 64;
    } else {
      SplitFour(n);
      assert b[0] == 0xF0 + n / 262144 && b[1] == 0x80 + (n / 4096) % 64;
      assert b[2] == 0x80 + (n / 64) % 64 && b[3] == 0x80 + n % 64;
    }
  }

  lemma TwoByteDigits(b0: int, b1: int)
    requires 0xC2 <= b0 <= 0xDF && 0x80 <= b1 < 0xC0
    ensures var n := (b0 - 0xC0) * 64 + (b1 - 0x80);
      0x80 <= n < 0x800 && 0xC0 + n / 64 == b0 && 0x80 + n % 64 == b1
  {
    DivMod64(b0 - 0xC0, b1 - 0x80);
  }

  lemma ThreeByteDigits(b0: int, b1: int, b2: int, n: int)
    requires 0xE0 <= b0 <= 0xEF && 0x80 <= b1 < 0xC0 && 0x80 <= b2 < 0xC0
    requires n == (b0 - 0xE0) * 4096 + (b1 - 0x80) * 64 + (b2 - 0x80)
    ensures n < 0x10000
    ensures 0xE0 + n / 4096 == b0 && 0x80 + (n / 64) % 64 == b1 && 0x80 + n % 64 == b2
  {
    var q := (b0 - 0xE0) * 64 + (b1 - 0x80);
    assert n == q * 64 + (b2 - 0x80);
    DivMod64(q, b2 - 0x80);
    DivMod64(b0 - 0xE0, b1 - 0x80);
    assert n / 4096 == (n / 64) / 64;
  }

  lemma FourByteDigits(b0: int, b1: int, b2: int, b3: int, n: int)
    requires 0xF0 <= b0 <= 0xF4 && 0x80 <= b1 < 0xC0 && 0x80 <= b2 < 0xC0 && 0x80 <= b3 < 0xC0
    requires n == (b0 - 0xF0) * 262144 + (b1 - 0x80) * 4096 + (b2 - 0x80) * 64 + (b3 - 0x80)
    ensures 0xF0 + n / 262144 == b0 && 0x80 + (n / 4096) % 64 == b1
    ensures 0x80 + (n / 64) % 64 == b2 && 0x80 + n % 64 == b3
  {
    var q2 := (b0 - 0xF0) * 64 + (b1 - 0x80);
    var q := q2 * 64 + (b2 - 0x80);
    assert n == q * 64 + (b3 - 0x80);
    DivMod64(q, b3 - 0x80);
    DivMod64(q2, b2 - 0x80);
    DivMod64(b0 - 0xF0, b1 - 0x80);
    assert n / 4096 == (n / 64) / 64;
    assert n / 262144 == ((n / 64) / 64) / 64;
  }

  /** Whatever strict decoding accepts at the head is the canonical encoding of what it returns. */
  lemma EncodeCharDecodeFirst(b: seq<byte>)
    requires |b| > 0 && DecodeFirst(b).Some?
    ensures b[..DecodeFirst(b).value.1] == EncodeChar(DecodeFirst(b).value.0)
  {
    var c := DecodeFirst(b).value.0;
    var k := DecodeFirst(b).value.1;
    var n := c as int;
    if k == 2 {
      TwoByteDigits(b[0], b[1]);
      assert b[..2] == [b[0], b[1]];
    } else if k == 3 {
      ThreeByteDigits(b[0], b[1], b[2], n);
      assert b[..3] == [b[0], b[1], b[2]];
    } else if k == 4 {
      FourByteDigits(b[0], b[1], b[2], b[3], n);
      assert b[..4] == [b[0], b[1], b[2], b[3]];
    }
  }

  /** Round trip one way: strict decoding inverts encoding, for every string (the empty one too). */
  lemma {:induction false} DecodeEncode(s: string)
    ensures Decode(Encode(s)) == Some(s)
  {
    if s != [] {
      var e := EncodeChar(s[0]);
      DecodeFirstEncodeChar(s[0], Encode(s[1..]));
      assert (e + Encode(s[1..]))[|e|..] == Encode(s[1..]);
      DecodeEncode(s[1..]);
      assert [s[0]] + s[1..] == s;
    }
  }

  /** Round trip the other way: bytes that decode are exactly the encoding of the decoded text. */
  lemma {:induction false} EncodeDecode(b: seq<byte>)
    requires Decode(b).Some?
    ensures Encode(Decode(b).value) == b
    decreases |b|
  {
    if b != [] {
      var c := DecodeFirst(b).value.0;
      var k := DecodeFirst(b).value.1;
      var tail := Decode(b[k..]);
      assert tail.Some? && Decode(b) == Some([c] + tail.value);
      EncodeCharDecodeFirst(b);
      EncodeDecode(b[k..]);
      var s := Decode(b).value;
      assert s[0] == c && s[1..] == tail.value;
      assert Encode(s) == EncodeChar(c) + Encode(tail.value);
      assert b == b[..k] + b[k..];
    }
  }
}

=== FILE: wrappers.dfy ===
/** Option and Result, the two failure-carrying wrappers the rest of the model uses. */
module Wrappers {

  /** A value that may be absent: Python's `None` versus a present value. */
  datatype Option<+T> = None | Some(value: T)

  /** The outcome of an operation that may raise: a value or the error it raised. */
  datatype Result<+R, +E> = Success(value: R) | Failure(error: E)
}
